=== FILE: README.md ===
# madoko-local build runner, modelled in Dafny

This project models the runner that madoko-local uses to build a Madoko document in a
private session directory (`support/madoko-local/src/run.js`). One build goes like this:

1. `madokoRun` applies the request defaults. It names a session directory from the
   clock, as the date, a dash, and the millisecond time in upper-case hexadecimal.
2. `madokoRunIn` puts each file of the request through the sandbox and writes it. It
   then checks the document name and runs the compiler.
3. After a normal exit, `readFiles` asks back a fixed list of artifacts under `out/`.
   It adds the last log file the compiler announced, when the sandbox accepts that path.
4. Each candidate goes through a stat, size-limit and read decision. The non-empty
   results go back to the caller together with the compiler's output.

The file also defines `xnormalize`, which folds `..` segments and turns unmatched ones
into a literal `.parent` segment, and `encodingFromMime`.

The model keeps the runner's decisions and leaves out the I/O. These collaborators
become function-typed parameters:

- the sandbox (`Sandbox.getSafePath` succeeding or not);
- the MIME lookup;
- the process execution, which reports the captured stdout and stderr and what the
  session directory holds afterwards.

The file system the harvest reads is an immutable map from name to what `fstat` and
`readFile` report.

The modules follow the program's structure:

- `Strings` holds the JavaScript string primitives the runner relies on.
- `PathNormalize` models `xnormalize`.
- `Mime` models `encodingFromMime`.
- `LogScan` models the log-announcement pattern and the "last match wins" loop.
- `Harvest` models `readFiles` and the final filter.
- `SessionName` models the session directory name.
- `Runner` models the flags, timeout, command and the two run functions.
- `Results` holds `Option` and `Result`.

## Model

| member | source | states |
|---|---|---|
| PathNormalize.NormalizeShape | support/madoko-local/src/run.js:26-47 | An empty path normalizes to the empty string. Otherwise the result never starts with `/` and contains no backslash. Every `/`-separated segment of the result is a real name: non-empty, not `.` and not `..`. |
| PathNormalize.NormalizeSplits | support/madoko-local/src/run.js:28-46 | Splitting a non-empty result at `/` gives back exactly the segments the fold kept, so the join loses nothing. |
| PathNormalize.NormalizeIdempotent | support/madoko-local/src/run.js:26-47 | Normalizing an already normalized path changes nothing. |
| PathNormalize.NormalizeContained | support/madoko-local/src/run.js:24-47 | Resolving the result under any root directory the way an operating system does (`..` pops, `.` and empty segments vanish) gives the root followed by the kept segments. The root is always a prefix, so no input escapes it. |
| PathNormalize.FoldClean | support/madoko-local/src/run.js:42-44 | Segments that are all real names (non-empty, not `.` or `..`, no slash) pass through the fold unchanged and in order. |
| PathNormalize.FoldParents | support/madoko-local/src/run.js:34-40 | For input without a literal `.parent` segment, the `.parent` segments of the fold's output are exactly its first entries, one per `..` not matched by an earlier name. Its length is the number of those unmatched `..` plus the number of names still open. |
| PathNormalize.FoldTail | support/madoko-local/src/run.js:34-44 | For input without a literal `.parent` segment, the fold is one `.parent` per unmatched `..` followed by exactly where the segments lead from an empty start, the way an operating system resolves them: the names still open, with every matched `..` having cancelled the name before it. |
| PathNormalize.ResolveFold | support/madoko-local/src/run.js:34-44 | For input without a literal `.parent` segment in which no `..` climbs past the start, resolving the segments from any directory the way an operating system does lands exactly at the folded stack under that directory. |
| PathNormalize.NormalizeKeepsTarget | support/madoko-local/src/run.js:26-47 | For such a path, the normalized path leads to the same place as the original from any directory: normalizing changes only how the path is spelled. |
| PathNormalize.NormalizeJoin | support/madoko-local/src/run.js:26-47 | Normalizing the `/`-join of any separator-free pieces gives the `/`-join of the fold of those pieces. This includes the empty join and a single empty piece, which both normalize to the empty string. |
| PathNormalize.FoldExampleCancel | support/madoko-local/src/run.js:34-37 | The segments of `a/b/../c` fold to `a`, `c`: a matched `..` cancels the name before it. |
| PathNormalize.FoldExampleEscape | support/madoko-local/src/run.js:34-40 | The segments of `../../secret` fold to `.parent`, `.parent`, `secret`: unmatched `..` become a literal segment. |
| PathNormalize.FoldExampleLiteral | support/madoko-local/src/run.js:35-40 | The segments of `x/.parent/..` fold to `x`, `.parent`, `.parent`: a `..` never cancels a `.parent` segment, even one the input spelled out. |
| Strings.SplitJoin | support/madoko-local/src/run.js:28-46 | Splitting the join of separator-free pieces gives the pieces back. |
| Strings.JoinSplit | support/madoko-local/src/run.js:28-46 | Joining the split pieces with the only separator the string contains restores the string. |
| Strings.IndexOf | support/madoko-local/src/run.js:50 | The result is the first index where the pattern occurs, or -1 when it occurs nowhere. |
| Mime.EncodingFromMime | support/madoko-local/src/run.js:49-51 | The encoding is UTF-8 exactly when the type starts with `text/` or is exactly `application/json`. It is base64 otherwise. |
| Mime.EncodingExamples | support/madoko-local/src/run.js:49-51 | `text/html` and `application/json` are UTF-8. `image/png`, `TEXT/plain` and `application/json; charset=utf-8` are base64: the test is case-sensitive and whole-string. |
| Harvest.Extname | support/madoko-local/src/run.js:77 | The extension is a suffix of the name. When non-empty, it starts with `.`, holds no `/` and no further `.`, and is preceded by something other than `/`. It is non-empty exactly when the last `/`-segment has a dot after its first character and is not `..`. |
| Harvest.Stem | support/madoko-local/src/run.js:77-78 | The stem followed by the extension is the document name. |
| Harvest.CandidatesShape | support/madoko-local/src/run.js:79-84 | There are 9 candidates, or 11 for a PDF build. Entry `i` is `out/` + stem + the `i`-th suffix. `.pdf` and `.tex` are asked for only in a PDF build, as the last two. No name is asked for twice. |
| LogScan.ParseCuts | support/madoko-local/src/run.js:86 | An accepted line has blanks up to some point, then the header in some case, then spaces, then the returned path, then only spaces to the end. The path is one or more path characters followed by `.log` in any case. |
| LogScan.ParseSound | support/madoko-local/src/run.js:86 | An accepted line consists of blanks, the header in some case, spaces, the returned path, and spaces. The path is one or more path characters followed by `.log` in any case. |
| LogScan.ParseComplete | support/madoko-local/src/run.js:86 | Every line of that shape is accepted, whatever the case of the header, and the capture is its path. |
| LogScan.ParseExamplePlain | support/madoko-local/src/run.js:86 | `log written at: out/a.log` announces `out/a.log`. |
| LogScan.LastSomeAppend | support/madoko-local/src/run.js:87-91 | Over a concatenation, the last present entry is the second part's when it has one, and the first part's otherwise. |
| LogScan.LastLogAppend | support/madoko-local/src/run.js:87-91 | An announcement in later lines hides every announcement in earlier ones. |
| LogScan.LastAnnouncementWins | support/madoko-local/src/run.js:86-91 | An announcing line followed only by lines that announce nothing decides the result, whatever comes before it. |
| LogScan.TranscriptLog | support/madoko-local/src/run.js:162 | In the combined text `stdout + "\n" + stderr + "\n"`, an announcement on stderr wins. Without one, the last announcement on stdout is used. |
| Harvest.HarvestNames | support/madoko-local/src/run.js:92-99 | The candidates always come first, unchanged. Exactly one more name is added exactly when a log path was discovered and the sandbox accepts it, and that name is the discovered path. A refused path is dropped without an error. |
| LogScan.LastSome | support/madoko-local/src/run.js:87-91 | Over the per-line announcements, the result is absent exactly when no line announces anything. Otherwise it is the announcement of some line after which no line announces anything. |
| Harvest.ReadOne | support/madoko-local/src/run.js:105-133 | The decision fails exactly when the file exists and is over the size limit, and then it names the file. Otherwise the entry carries the name, the looked-up MIME type and its encoding. Non-empty content only comes from an existing, in-limit file whose read returned exactly that content. A successful read is always returned in full. |
| Harvest.ReadAll | support/madoko-local/src/run.js:101-134 | Reading a list succeeds exactly when no name is over the limit. Entry `i` is then the decision for name `i`. A failure names an over-limit name of the list. |
| Harvest.FirstUnsafe | support/madoko-local/src/run.js:101-103 | The result is absent exactly when the sandbox accepts every name. Otherwise it is a refused name with every earlier name accepted. |
| Harvest.Harvest | support/madoko-local/src/run.js:101-134 | The harvest succeeds exactly when the sandbox accepts every name and none is over the limit. Any refused name makes it a sandbox violation. A failure is only ever a sandbox violation or a too-large file. A sandbox violation names the first refused name. When the sandbox accepts every name, a failure is a too-large file naming an over-limit name of the list. |
| Harvest.KeepNonEmpty | support/madoko-local/src/run.js:167 | A file is kept exactly when it is among the entries and has non-empty content. |
| Harvest.KeepNonEmptyAppend | support/madoko-local/src/run.js:167 | The filter works piece by piece, so the kept files keep their relative order. |
| Harvest.KeptPaths | support/madoko-local/src/run.js:167 | When entry `i` was read for name `i`, the filter keeps one entry per name whose file exists within the limit and reads as non-empty bytes, in name order, and no other. |
| Harvest.HarvestKept | support/madoko-local/src/run.js:116-132 | Every kept file has a harvested name and exists in the session directory within the size limit. Its content is exactly what reading it returned. Its MIME type is the lookup of its name, and its encoding is the one derived from that type. |
| Harvest.HarvestPaths | support/madoko-local/src/run.js:101-134 | After a successful harvest, the filtered files are exactly those of the names whose file exists within the limit and reads as non-empty bytes, in name order. |
| Runner.DocnameOf | support/madoko-local/src/run.js:190 | An absent or empty document name becomes `document.mdk`. Any other name is kept, so the name used is never empty. |
| Runner.FlagsShape | support/madoko-local/src/run.js:157 | The flags of a non-PDF build are the verbosity and math-embedding flags followed by `0`, and contain no `--pdf`. The PDF mode's flags are those with the trailing `0` replaced by `512 --pdf`, so they end in ` --pdf`. |
| Runner.EffectiveTimeout | support/madoko-local/src/run.js:142 | A missing or zero timeout becomes 10000 ms and any other value is kept, so the process never runs with 0 ("no timeout"). |
| Runner.CommandQuoting | support/madoko-local/src/run.js:139 | Read as text, the part between the command's last two double quotes is the document name exactly when the name contains no double quote. |
| Runner.QuotedLast | support/madoko-local/src/run.js:139 | Read as text, whatever precedes it, a double-quoted word at the end of a command comes back as itself exactly when it contains no double quote. |
| Runner.CommandShape | support/madoko-local/src/run.js:139 | The command starts with the program and a space, ends with the flags, the standard flags `--odir=out --sandbox` and the double-quoted document name, each after one space, and is exactly as long as those two parts together, so nothing else lies between them. |
| Runner.RequestFor | support/madoko-local/src/run.js:137-158 | The process runs in the session directory with a 512 KiB output buffer. The timeout is the PDF timeout for a PDF build and the math timeout otherwise, with a missing or zero one replaced by 10000 ms. The command is exactly the configured program followed by a space, the mode's flags, the standard flags and the document name in double quotes: it starts with the first part, ends with the rest, and has their combined length. For a name without double quotes, the text between the last two quotes is that name. |
| Runner.HarvestOutput | support/madoko-local/src/run.js:160-171 | For any list of names, the harvest succeeds exactly when the sandbox accepts every name and no file is over the limit; a failure is a sandbox violation or a too-large file. A success passes stdout and stderr through and returns exactly the files of the names that exist within the limit and read as non-empty bytes, in name order. Each file carries the content read, the looked-up MIME type and the encoding derived from it. A sandbox violation names the first refused name; with every name accepted, a failure is a too-large file naming an over-limit name. |
| Runner.Collect | support/madoko-local/src/run.js:160-171 | After a normal exit, the harvest succeeds exactly when the sandbox accepts every harvested name and no file is over the limit; a failure is a sandbox violation or a too-large file. A success passes stdout and stderr through. Its files are exactly those of the harvested names that exist within the limit and read as non-empty bytes, in name order, each with the content read, the looked-up MIME type and its encoding. A sandbox violation names the first refused name; with every name accepted, a failure is a too-large file naming an over-limit name. |
| Runner.RunIn | support/madoko-local/src/run.js:154-180 | A run answers exactly when every file path and the document name pass the sandbox, the process exits normally and the harvest goes through. Any refused path or name fails with a sandbox violation before anything runs. Otherwise a failed process fails with exactly its stdout and stderr, and a normal exit gives the harvest of what it left. An answer passes the output through and holds exactly the readable harvested files, in name order, with their content, MIME type and encoding. |
| Runner.Run | support/madoko-local/src/run.js:189-198 | After the defaults, the answer is exactly that of `madokoRunIn` in the session directory named for the request. So it answers under the same condition, and an answer passes the compiler's output through and holds exactly the readable harvested files, in name order, with content, MIME type and encoding, none of them empty. A refused path or name is a sandbox violation. A failed process fails with exactly its stdout and stderr, and a process failure arises only that way. |
| SessionName.HexRoundTrip | support/madoko-local/src/run.js:194 | Reading the upper-case hexadecimal rendering back gives the number. |
| SessionName.TimeHexRoundTrip | support/madoko-local/src/run.js:194 | Reading a rendered timestamp back, sign included, gives the timestamp. |
| SessionName.TimeHexInjective | support/madoko-local/src/run.js:194 | Two timestamps with the same rendering are equal. |
| SessionName.SessionDirsDistinct | support/madoko-local/src/run.js:193-195 | Requests made at different milliseconds get different session directory names, whatever their dates. |

## Left out

- The `exec` service sees only the request, so what the compiler produces is not tied to the files the request wrote; no stated property relies on that link.
- Process control: `Cp.exec` itself, enforcing the timeout and the output-buffer cap, and the exit status. These are the `exec` service. The model fixes only what the runner asks of it and how it uses the answer.
- File-system effects: writing the request's files (`saveFiles`, `Util.writeFile`), `Util.ensureDir`, and their failures. A write failure would fail the run; the model takes the writes to succeed.
- Delayed removal of the session directory (`setTimeout`, `Util.removeDirAll`), because it happens after the answer and cannot change it. Removal is scheduled only once `madokoRunIn` has returned a promise (line 198). A request file path the sandbox refuses throws synchronously inside `saveFiles` (lines 64-65), before that, so such a request leaves its session directory in place.
- Logging (`Log.*`) and the build-time measurement with `toFixed`, because neither affects the result.
- `buffer.toString(encoding)`: content stays as the bytes read. A UTF-8 or base64 rendering is empty exactly when the bytes are, so the non-empty filter is the same.
- `Sandbox.getSafePath` (sandbox.js is not part of this model). It is a predicate parameter, and the model treats a refusal as the thrown error.
- `config.mime.lookup` is a function parameter.
- `Util.combine` (util.js is not part of this model) is taken to join with one `/`.
- `Util.fstat` and `Util.readFile` are a map from name to a size and an optional content. A missing entry stands for a file without a stat.
- Harvest.Extname: follows the POSIX rule of Node's `path.extname` for names without a trailing slash. A trailing slash and the win32 variant are not modelled.
- The clock and `toISOString` are inputs: the ISO text and the millisecond time.
- Which error wins when several harvest reads fail. `Promise.when` reports whichever rejection comes first in time. The model reports the first over-limit name in list order. A refused name always wins, because `getSafePath` throws while the reads are being set up.
- Harvest errors carry no stdout or stderr: the code attaches the output only to a failed process (lines 172-178), and the model follows it.
- Runner.EffectiveTimeout: the timeout is an integer, so the other falsy values JavaScript would also replace (`NaN`, `null`) are represented only by an absent value.
- Runner.PdfOf and Runner.FilesOf: `params.pdf` and `params.files` are typed as a boolean and a list. The truthiness of other JavaScript values is not modelled.
- Runner.RunIn: the document name reaches the shell inside double quotes without escaping. Runner.CommandQuoting and Runner.LastQuoted are textual: they say where the quotes are, not what `/bin/sh -c` passes on. Inside double quotes a shell still expands `$`, backquotes and `\`, so a name like `$(id).mdk` runs a command. Shell expansion, and whether the sandbox refuses such names, are outside the model.
- SessionName.SessionDirsDistinct: distinct directory names hold only for distinct milliseconds. Two requests in the same millisecond get the same name, and `Util.ensureDir` accepts a directory that already exists, so they share one session directory. Concurrent requests are outside the model.

=== FILE: harvest.dfy ===
/** Harvesting the compiler's outputs (`readFiles` and the filter in `madokoRunIn`): the
    fixed candidate names, the announced log file, the per-file stat/size/read decision
    and the final non-empty filter. The session directory is an immutable map from
    sandbox-relative name to what `fstat` and `readFile` would report. */
module Harvest {
  import opened Results
  import opened Strings
  import opened Mime

  /** Why a build fails: the run's error type. The harvest itself gives only the first two;
      `ProcessFailed` is the runner's, for a compiler that did not exit normally. */
  datatype Error =
    | SandboxViolation(path: string)            // `Sandbox.getSafePath` refused the path
    | FileTooLarge(path: string)                // a generated file is over `limits.fileSize`
    | ProcessFailed(stdout: string, stderr: string)  // the compiler failed or timed out

  // ---------------------------------------------------------------------------
  // Candidate names
  // ---------------------------------------------------------------------------

  /** The directory the compiler writes into (`--odir=out`). */
  const OutDir: string := "out"

  /** The intermediate artifacts asked back after every run, in order. */
  const BaseSuffixes: seq<string> :=
    [".dimx", "-math-dvi.dim", "-math-pdf.dim",
     "-math-dvi.tex", "-math-pdf.tex",
     "-math-dvi.final.tex", "-math-pdf.final.tex",
     "-bib.bbl", "-bib.aux"]

  /** The final artifacts asked back after a PDF build. */
  const PdfSuffixes: seq<string> := [".pdf", ".tex"]

  /** `Util.combine(dir, name)`, taken to join with a single slash. */
  function Combine(dir: string, name: string): string {
    dir + "/" + name
  }

  /** Position `d` holds a dot of the last `/`-segment that is not the segment's first
      character. */
  predicate ExtensionDot(name: string, d: int) {
    0 < d < |name| && name[d] == '.' && name[d - 1] != '/' &&
    forall k | d < k < |name| :: name[k] != '/'
  }

  /** The last `/`-segment is exactly `..`. */
  predicate EndsInDotDot(name: string) {
    |name| >= 2 && name[|name| - 2] == '.' && name[|name| - 1] == '.' &&
    (|name| == 2 || name[|name| - 3] == '/')
  }

  /** `Path.extname` under POSIX rules: from the last `.` of the last `/`-segment to the
      end, or nothing when that segment has no dot, starts with its only dot, or is `..`. */
  function Extname(name: string): (ext: string)
    ensures |ext| <= |name| && ext == name[|name| - |ext|..]
    ensures ext != "" ==> ext[0] == '.'
    ensures forall k | 0 <= k < |ext| :: ext[k] != '/'
    ensures forall k | 1 <= k < |ext| :: ext[k] != '.'
    ensures ext != "" ==> |ext| < |name| && name[|name| - |ext| - 1] != '/'
    ensures ext != "" <==> (exists d :: ExtensionDot(name, d)) && !EndsInDotDot(name)
  {
    var slash := LastIndexOf(name, '/');
    var dot := LastIndexOf(name, '.');
    // the last dot of the whole name is the last dot of its last segment, if it has one
    var segmentIsDotDot := |name| == slash + 3 && name[slash + 1] == '.' && name[slash + 2] == '.';
    assert segmentIsDotDot <==> EndsInDotDot(name) by {
      if EndsInDotDot(name) && |name| > 2 { assert name[|name| - 3] == '/'; }
    }
    // every dot that could start an extension lies after the segment's first character
    assert forall d | ExtensionDot(name, d) :: slash + 1 < d <= dot;
    if dot <= slash + 1 || segmentIsDotDot then ""
    else
      var ext := name[dot..];
      assert forall k | 0 <= k < |ext| :: ext[k] == name[dot + k];
      assert ExtensionDot(name, dot);
      ext
  }

  /** The document name without its extension; putting the extension back restores it. */
  function Stem(docname: string): (stem: string)
    ensures stem + Extname(docname) == docname
  {
    docname[..|docname| - |Extname(docname)|]
  }

  function Suffixes(pdf: bool): seq<string> {
    BaseSuffixes + (if pdf then PdfSuffixes else [])
  }

  /** The fixed candidate list: `out/<stem><suffix>` for every suffix, in order. */
  function Candidates(docname: string, pdf: bool): seq<string> {
    var stem := Stem(docname);
    seq(|Suffixes(pdf)|, i requires 0 <= i < |Suffixes(pdf)| => Combine(OutDir, stem + Suffixes(pdf)[i]))
  }

  /** Two names under the same prefix are equal only when their suffixes are. */
  lemma AppendCancel(prefix: string, x: string, y: string)
    requires prefix + x == prefix + y
    ensures x == y
  {
    assert (prefix + x)[|prefix|..] == x;
    assert (prefix + y)[|prefix|..] == y;
  }

  /** No two suffixes coincide. */
  lemma SuffixesDistinct()
    ensures forall i, j | 0 <= i < j < |Suffixes(true)| :: Suffixes(true)[i] != Suffixes(true)[j]
  {
    var s := Suffixes(true);
    assert forall i | 0 <= i < |s| :: s[i][0] == '.' <==> i == 0 || i == 9 || i == 10;
    assert forall i | 1 <= i < 9 :: s[i][1] == 'm' <==> i < 7;
    assert s[1][6] != s[2][6] && s[3][6] != s[4][6] && s[5][6] != s[6][6];
    assert s[1][10] != s[3][10] && s[2][10] != s[4][10];
    assert |s[1]| != |s[5]| && |s[2]| != |s[6]| && |s[3]| != |s[5]| && |s[4]| != |s[6]|;
    assert s[7][6] != s[8][6];
    assert s[0][1] != s[9][1] && s[0][1] != s[10][1] && s[9][1] != s[10][1];
  }

  /** Entry `i` of the candidate list is `out/` + stem + the `i`-th suffix. */
  lemma CandidatesAt(docname: string, pdf: bool)
    ensures |Candidates(docname, pdf)| == |Suffixes(pdf)|
    ensures forall i | 0 <= i < |Suffixes(pdf)| ::
              Candidates(docname, pdf)[i] == "out/" + Stem(docname) + Suffixes(pdf)[i]
  {
    var stem := Stem(docname);
    forall i | 0 <= i < |Suffixes(pdf)|
      ensures Candidates(docname, pdf)[i] == "out/" + stem + Suffixes(pdf)[i]
    {
      assert OutDir + "/" + (stem + Suffixes(pdf)[i]) == "out/" + stem + Suffixes(pdf)[i];
    }
  }

  /** The candidate list has 9 entries, or 11 with `pdf`; entry `i` is `out/` + stem +
      the `i`-th suffix; the `.pdf` and `.tex` entries exist only with `pdf`, as the last
      two; and no name is asked for twice. */
  lemma CandidatesShape(docname: string, pdf: bool)
    ensures var names := Candidates(docname, pdf);
            |names| == (if pdf then 11 else 9) &&
            (forall i | 0 <= i < 9 :: names[i] == "out/" + Stem(docname) + BaseSuffixes[i]) &&
            (pdf ==> names[9] == "out/" + Stem(docname) + ".pdf" && names[10] == "out/" + Stem(docname) + ".tex")
    ensures var names := Candidates(docname, pdf);
            forall i | 0 <= i < |names| :: names[i] == "out/" + Stem(docname) + ".pdf" ==> pdf && i == 9
    ensures var names := Candidates(docname, pdf);
            forall i | 0 <= i < |names| :: names[i] == "out/" + Stem(docname) + ".tex" ==> pdf && i == 10
    ensures var names := Candidates(docname, pdf);
            forall i, j | 0 <= i < j < |names| :: names[i] != names[j]
  {
    var names := Candidates(docname, pdf);
    var prefix := "out/" + Stem(docname);
    var all := Suffixes(true);
    CandidatesAt(docname, pdf);
    SuffixesDistinct();
    assert forall i | 0 <= i < |Suffixes(pdf)| :: Suffixes(pdf)[i] == all[i];
    assert all[9] == ".pdf" && all[10] == ".tex";
    forall i, j | 0 <= i < |names| && 0 <= j < |all| && names[i] == prefix + all[j]
      ensures i == j
    {
      AppendCancel(prefix, all[i], all[j]);
    }
  }

  /** The names to harvest: the candidates, then the announced log path `log` (see
      `DiscoverLog`) when the sandbox accepts it. A log path the sandbox refuses is
      dropped without an error. */
  function HarvestNames(docname: string, pdf: bool, log: Option<string>, safe: string -> bool): (names: seq<string>)
    ensures Candidates(docname, pdf) <= names
    ensures |names| == |Candidates(docname, pdf)| + 1 || |names| == |Candidates(docname, pdf)|
    ensures |names| > |Candidates(docname, pdf)| <==> log.Some? && safe(log.value)
    ensures |names| > |Candidates(docname, pdf)| ==> names[|names| - 1] == log.value
  {
    var fixed := Candidates(docname, pdf);
    match log
    case Some(path) => if safe(path) then fixed + [path] else fixed
    case None => fixed
  }

  // ---------------------------------------------------------------------------
  // Reading the session directory
  // ---------------------------------------------------------------------------

  newtype byte = x: int | 0 <= x < 256

  /** What `fstat` reports for an existing file, and what `readFile` then yields
      (`None` when the read fails). The two are separate calls in the source, so the
      size need not match the bytes. */
  datatype Stat = Stat(size: nat, data: Option<seq<byte>>)

  /** The session directory as the harvest sees it; a name that is absent has no stat. */
  type FileMap = map<string, Stat>

  /** A harvested entry. The content is kept as the bytes read; rendering it as UTF-8 or
      base64 text is empty exactly when the bytes are. */
  datatype OutputFile = OutputFile(path: string, mime: string, encoding: Encoding, content: seq<byte>)

  predicate TooLarge(files: FileMap, limit: int, name: string) {
    name in files && files[name].size > limit
  }

  /** The decision for one candidate: no stat or a failed read gives an empty entry, a
      file over the limit fails the harvest without being read, anything else is read.
      Every entry carries the looked-up MIME type and the encoding derived from it. */
  function ReadOne(files: FileMap, limit: int, mimeOf: string -> string, name: string): (r: Result<OutputFile, Error>)
    ensures r.Failure? <==> TooLarge(files, limit, name)
    ensures r.Failure? ==> r.error == FileTooLarge(name)
    ensures r.Success? ==>
              r.value.path == name && r.value.mime == mimeOf(name) && r.value.encoding == EncodingFromMime(mimeOf(name)) &&
              (r.value.encoding == Utf8 <==> StartsWith(mimeOf(name), "text/") || mimeOf(name) == "application/json")
    ensures r.Success? && |r.value.content| > 0 ==>
              name in files && files[name].size <= limit && files[name].data == Some(r.value.content)
    ensures r.Success? && name in files && files[name].data.Some? ==> r.value.content == files[name].data.value
  {
    var mime := mimeOf(name);
    var empty := OutputFile(name, mime, EncodingFromMime(mime), []);
    if name !in files then Success(empty)
    else if files[name].size > limit then Failure(FileTooLarge(name))
    else
      match files[name].data
      case None => Success(empty)
      case Some(bytes) => Success(OutputFile(name, mime, EncodingFromMime(mime), bytes))
  }

  /** Reads every candidate in order; the first one over the limit fails the whole list. */
  function ReadAll(files: FileMap, limit: int, mimeOf: string -> string, names: seq<string>): (r: Result<seq<OutputFile>, Error>)
    ensures r.Success? <==> forall i | 0 <= i < |names| :: !TooLarge(files, limit, names[i])
    ensures r.Success? ==>
              |r.value| == |names| &&
              forall i | 0 <= i < |names| :: ReadOne(files, limit, mimeOf, names[i]) == Success(r.value[i])
    ensures r.Failure? ==>
              exists i | 0 <= i < |names| :: TooLarge(files, limit, names[i]) && r.error == FileTooLarge(names[i])
    decreases |names|
  {
    if |names| == 0 then Success([])
    else
      match ReadOne(files, limit, mimeOf, names[0])
      case Failure(e) => Failure(e)
      case Success(first) =>
        match ReadAll(files, limit, mimeOf, names[1..])
        case Failure(e) => Failure(e)
        case Success(rest) => Success([first] + rest)
  }

  /** The first name the sandbox refuses, if any. */
  function FirstUnsafe(names: seq<string>, safe: string -> bool): (r: Option<string>)
    ensures r.None? <==> forall i | 0 <= i < |names| :: safe(names[i])
    ensures r.Some? ==>
              exists i | 0 <= i < |names| :: names[i] == r.value && !safe(names[i]) &&
                forall j | 0 <= j < i :: safe(names[j])
    decreases |names|
  {
    if |names| == 0 then None
    else if !safe(names[0]) then Some(names[0])
    else
      var r := FirstUnsafe(names[1..], safe);
      assert forall i | 1 <= i < |names| :: names[1..][i - 1] == names[i];
      r
  }

  /** Harvest of a list of names: every name is first resolved through the sandbox (a
      refusal throws before any file is looked at), then each is read. */
  function Harvest(files: FileMap, limit: int, mimeOf: string -> string, safe: string -> bool, names: seq<string>)
    : (r: Result<seq<OutputFile>, Error>)
    ensures r.Success? <==>
              (forall i | 0 <= i < |names| :: safe(names[i])) &&
              (forall i | 0 <= i < |names| :: !TooLarge(files, limit, names[i]))
    ensures (exists i | 0 <= i < |names| :: !safe(names[i])) ==> r.Failure? && r.error.SandboxViolation?
    ensures r.Failure? ==> r.error.SandboxViolation? || r.error.FileTooLarge?
    ensures r.Failure? && r.error.SandboxViolation? ==> FirstUnsafe(names, safe) == Some(r.error.path)
    ensures (forall i | 0 <= i < |names| :: safe(names[i])) && r.Failure? ==>
              exists i | 0 <= i < |names| :: TooLarge(files, limit, names[i]) && r.error == FileTooLarge(names[i])
    ensures r.Success? ==>
              |r.value| == |names| &&
              forall i | 0 <= i < |names| :: ReadOne(files, limit, mimeOf, names[i]) == Success(r.value[i])
  {
    match FirstUnsafe(names, safe)
    case Some(bad) => Failure(SandboxViolation(bad))
    case None => ReadAll(files, limit, mimeOf, names)
  }

  // ---------------------------------------------------------------------------
  // The final filter
  // ---------------------------------------------------------------------------

  /** The entries with non-empty content, in their original order. */
  function KeepNonEmpty(entries: seq<OutputFile>): (kept: seq<OutputFile>)
    ensures forall f :: f in kept <==> f in entries && |f.content| > 0
    ensures |kept| <= |entries|
    decreases |entries|
  {
    if |entries| == 0 then []
    else (if |entries[0].content| > 0 then [entries[0]] else []) + KeepNonEmpty(entries[1..])
  }

  /** The filter works piecewise, so it keeps the relative order of what it keeps. */
  lemma {:induction false} KeepNonEmptyAppend(a: seq<OutputFile>, b: seq<OutputFile>)
    ensures KeepNonEmpty(a + b) == KeepNonEmpty(a) + KeepNonEmpty(b)
    decreases |a|
  {
    if |a| == 0 {
      assert a + b == b;
    } else {
      assert (a + b)[0] == a[0];
      assert (a + b)[1..] == a[1..] + b;
      KeepNonEmptyAppend(a[1..], b);
    }
  }

  /** A name whose file exists within the size limit and reads as non-empty bytes. */
  predicate Readable(files: FileMap, limit: int, name: string) {
    name in files && files[name].size <= limit &&
    files[name].data.Some? && |files[name].data.value| > 0
  }

  /** The readable names, in their original order: what the filter should leave. */
  function ReadableNames(files: FileMap, limit: int, names: seq<string>): seq<string>
    decreases |names|
  {
    if |names| == 0 then []
    else (if Readable(files, limit, names[0]) then [names[0]] else []) + ReadableNames(files, limit, names[1..])
  }

  function OutputPaths(entries: seq<OutputFile>): seq<string>
    decreases |entries|
  {
    if |entries| == 0 then [] else [entries[0].path] + OutputPaths(entries[1..])
  }

  /** An entry read for a name is non-empty exactly when that name is readable. */
  predicate ReadAs(files: FileMap, limit: int, name: string, entry: OutputFile) {
    entry.path == name && (|entry.content| > 0 <==> Readable(files, limit, name))
  }

  lemma ReadOneAs(files: FileMap, limit: int, mimeOf: string -> string, name: string)
    requires ReadOne(files, limit, mimeOf, name).Success?
    ensures ReadAs(files, limit, name, ReadOne(files, limit, mimeOf, name).value)
  {
  }

  /** Filtering entries read one per name keeps exactly the readable names, in order:
      an entry is dropped precisely when its file is missing, unread or empty. */
  lemma {:induction false} KeptPaths(files: FileMap, limit: int, names: seq<string>, entries: seq<OutputFile>)
    requires |entries| == |names|
    requires forall i | 0 <= i < |names| :: ReadAs(files, limit, names[i], entries[i])
    ensures OutputPaths(KeepNonEmpty(entries)) == ReadableNames(files, limit, names)
    decreases |names|
  {
    if |names| > 0 {
      var head := if |entries[0].content| > 0 then [entries[0]] else [];
      assert ReadAs(files, limit, names[0], entries[0]);
      assert forall i | 0 <= i < |names| - 1 :: names[1..][i] == names[i + 1] && entries[1..][i] == entries[i + 1];
      KeptPaths(files, limit, names[1..], entries[1..]);
      var rest := KeepNonEmpty(entries[1..]);
      assert KeepNonEmpty(entries) == head + rest;
      if head != [] {
        assert (head + rest)[1..] == rest;
      } else {
        assert head + rest == rest;
      }
    }
  }

  /** The files that make it through the filter are those of the readable names, in
      name order. */
  lemma HarvestPaths(files: FileMap, limit: int, mimeOf: string -> string, safe: string -> bool, names: seq<string>)
    requires Harvest(files, limit, mimeOf, safe, names).Success?
    ensures OutputPaths(KeepNonEmpty(Harvest(files, limit, mimeOf, safe, names).value)) ==
              ReadableNames(files, limit, names)
  {
    var entries := Harvest(files, limit, mimeOf, safe, names).value;
    forall i | 0 <= i < |names| ensures ReadAs(files, limit, names[i], entries[i]) {
      ReadOneAs(files, limit, mimeOf, names[i]);
    }
    KeptPaths(files, limit, names, entries);
  }

  /** Every harvested file that made it through the filter carries one of the harvested
      names and was read in full from an existing file within the size limit. */
  lemma HarvestKept(files: FileMap, limit: int, mimeOf: string -> string, safe: string -> bool, names: seq<string>)
    requires Harvest(files, limit, mimeOf, safe, names).Success?
    ensures forall f | f in KeepNonEmpty(Harvest(files, limit, mimeOf, safe, names).value) ::
              f.path in names && f.path in files && files[f.path].size <= limit &&
              files[f.path].data == Some(f.content) && |f.content| > 0 &&
              f.mime == mimeOf(f.path) && f.encoding == EncodingFromMime(f.mime)
  {
    var entries := Harvest(files, limit, mimeOf, safe, names).value;
    forall f | f in KeepNonEmpty(entries)
      ensures f.path in names && f.path in files && files[f.path].size <= limit
      ensures files[f.path].data == Some(f.content) && |f.content| > 0
      ensures f.mime == mimeOf(f.path) && f.encoding == EncodingFromMime(f.mime)
    {
      var i :| 0 <= i < |entries| && entries[i] == f;
      assert ReadOne(files, limit, mimeOf, names[i]) == Success(f);
    }
  }
}

=== FILE: logscan.dfy ===
/** Discovery of the log file the compiler announces in its output. The source matches
    `^[ \t]*log written at: *([\w\-\/\\]+\.log) *$` case-insensitively over every line of
    the combined output and keeps the last match; here that pattern is a hand-written
    predicate on one line. */
module LogScan {
  import opened Results
  import opened Strings

  const Header: string := "log written at:"
  const LogExt: string := ".log"

  /** Line terminators of a multiline JavaScript pattern: `^` and `$` match next to them. */
  predicate IsLineTerminator(c: char) {
    c == '\n' || c == '\r' || c == '\U{2028}' || c == '\U{2029}'
  }

  /** `[ \t]`, allowed in front of the announcement. */
  predicate IsBlank(c: char) {
    c == ' ' || c == '\t'
  }

  /** ` `, the only padding allowed around the path. */
  predicate IsSpace(c: char) {
    c == ' '
  }

  /** `[\w\-\/\\]`: ASCII letters and digits, underscore, dash and both slashes. */
  predicate IsPathChar(c: char) {
    'a' <= c <= 'z' || 'A' <= c <= 'Z' || '0' <= c <= '9' || c == '_' || c == '-' || c == '/' || c == '\\'
  }

  /** ASCII case folding, the only folding a non-Unicode `/i` pattern does for these
      characters. */
  function Lower(c: char): char {
    if 'A' <= c <= 'Z' then (c as int + 32) as char else c
  }

  predicate EqualsIgnoreCase(a: string, b: string) {
    |a| == |b| && forall i | 0 <= i < |a| :: Lower(a[i]) == Lower(b[i])
  }

  /** The captured group: one or more path characters followed by `.log` in any case. */
  predicate IsLogPath(p: string) {
    |p| > |LogExt| && EqualsIgnoreCase(p[|p| - |LogExt|..], LogExt) && All(p[..|p| - |LogExt|], IsPathChar)
  }

  /** The path a single line announces, if it is an announcement: blanks, the header in
      any case, spaces, the path, spaces, and nothing else. */
  function ParseLogLine(line: string): Option<string> {
    var a := SkipWhile(line, IsBlank, 0);
    if a + |Header| > |line| || !EqualsIgnoreCase(line[a..a + |Header|], Header) then None
    else
      var b := SkipWhile(line, IsSpace, a + |Header|);
      var c := SkipBackWhile(line, IsSpace, |line|);
      if b <= c && IsLogPath(line[b..c]) then Some(line[b..c]) else None
  }

  /** Where an accepted line is cut: after the leading blanks (`a`), after the header
      (`h`), before the path (`b`) and after it (`c`). */
  lemma ParseCuts(line: string) returns (a: nat, h: nat, b: nat, c: nat)
    requires ParseLogLine(line).Some?
    ensures a <= h <= b <= c <= |line|
    ensures ParseLogLine(line) == Some(line[b..c])
    ensures EqualsIgnoreCase(line[a..h], Header) && IsLogPath(line[b..c])
    ensures forall k | 0 <= k < a :: IsBlank(line[k])
    ensures forall k | h <= k < b :: IsSpace(line[k])
    ensures forall k | c <= k < |line| :: IsSpace(line[k])
  {
    a := SkipWhile(line, IsBlank, 0);
    h := a + |Header|;
    b := SkipWhile(line, IsSpace, h);
    c := SkipBackWhile(line, IsSpace, |line|);
  }

  /** Soundness: a line the parser accepts has the shape the pattern describes, and the
      returned path is its captured group. */
  lemma ParseSound(line: string) returns (lead: string, header: string, sp1: string, path: string, sp2: string)
    requires ParseLogLine(line).Some?
    ensures ParseLogLine(line) == Some(path) && IsLogPath(path)
    ensures line == lead + header + sp1 + path + sp2
    ensures All(lead, IsBlank) && EqualsIgnoreCase(header, Header)
    ensures All(sp1, IsSpace) && All(sp2, IsSpace)
  {
    var a, h, b, c := ParseCuts(line);
    Pieces(line, a, h, b, c);
    AllSlice(line, 0, a, IsBlank);
    AllSlice(line, h, b, IsSpace);
    AllSlice(line, c, |line|, IsSpace);
    lead, header, sp1, path, sp2 := line[0..a], line[a..h], line[h..b], line[b..c], line[c..|line|];
    assert line[..a] == lead && line[c..] == sp2;
  }

  /** Completeness: every line of the shape the pattern describes is accepted, with its
      path as the capture, whatever the case of the header. */
  lemma ParseComplete(lead: string, header: string, sp1: string, path: string, sp2: string)
    requires All(lead, IsBlank) && EqualsIgnoreCase(header, Header)
    requires All(sp1, IsSpace) && All(sp2, IsSpace)
    requires IsLogPath(path)
    ensures ParseLogLine(lead + header + sp1 + path + sp2) == Some(path)
  {
    var line := lead + header + sp1 + path + sp2;
    var a := |lead|;
    var b := a + |header| + |sp1|;
    var c := b + |path|;
    assert Lower(header[0]) == 'l';
    assert line[a] == header[0];
    SkipWhileExact(line, IsBlank, 0, a);
    assert line[a..a + |Header|] == header;
    assert path[..|path| - |LogExt|][0] == path[0];
    assert line[b] == path[0];
    SkipWhileExact(line, IsSpace, a + |Header|, b);
    assert Lower(path[|path| - |LogExt|..][3]) == 'g';
    assert line[c - 1] == path[|path| - 1];
    SkipBackWhileExact(line, IsSpace, |line|, c);
    assert line[b..c] == path;
  }

  /** The lines of a text, as the multiline `^` and `$` see them. */
  function Lines(text: string): seq<string> {
    Split(text, IsLineTerminator)
  }

  /** The index of the last present entry of `xs`, or -1 when every entry is absent. */
  function LastSomeIndex<T>(xs: seq<Option<T>>): (r: int)
    ensures -1 <= r < |xs|
    ensures r >= 0 ==> xs[r].Some?
    ensures forall j | r < j < |xs| :: xs[j].None?
    decreases |xs|
  {
    if |xs| == 0 then -1
    else if xs[|xs| - 1].Some? then |xs| - 1
    else LastSomeIndex(xs[..|xs| - 1])
  }

  /** The last present entry of `xs`, if any entry is present. */
  function LastSome<T>(xs: seq<Option<T>>): (r: Option<T>)
    ensures r.None? <==> forall i | 0 <= i < |xs| :: xs[i].None?
    ensures r.Some? ==> exists i | 0 <= i < |xs| :: xs[i] == r && forall j | i < j < |xs| :: xs[j].None?
  {
    var k := LastSomeIndex(xs);
    if k < 0 then None else xs[k]
  }

  /** What each line announces, line by line. */
  function Announcements(lines: seq<string>): (found: seq<Option<string>>)
    ensures |found| == |lines|
    ensures forall i | 0 <= i < |lines| :: found[i] == ParseLogLine(lines[i])
  {
    seq(|lines|, i requires 0 <= i < |lines| => ParseLogLine(lines[i]))
  }

  /** The path announced by the last announcing line, if any line announces one. */
  function LastLog(lines: seq<string>): Option<string> {
    LastSome(Announcements(lines))
  }

  /** The log path the runner considers: the last announcement in the whole text. */
  function DiscoverLog(text: string): Option<string> {
    LastLog(Lines(text))
  }

  /** Later lines win: an announcement in the second part hides every one in the first. */
  lemma {:induction false} LastSomeAppend<T>(a: seq<Option<T>>, b: seq<Option<T>>)
    ensures LastSome(a + b) == if LastSome(b).Some? then LastSome(b) else LastSome(a)
    decreases |b|
  {
    if |b| == 0 {
      assert a + b == a;
    } else {
      var init := b[..|b| - 1];
      assert (a + b)[..|a + b| - 1] == a + init;
      LastSomeAppend(a, init);
    }
  }

  lemma AnnouncementsAppend(a: seq<string>, b: seq<string>)
    ensures Announcements(a + b) == Announcements(a) + Announcements(b)
  {
    forall i | 0 <= i < |a + b| ensures Announcements(a + b)[i] == (Announcements(a) + Announcements(b))[i] {
      if i < |a| {
        assert (a + b)[i] == a[i];
      } else {
        assert (a + b)[i] == b[i - |a|];
      }
    }
  }

  lemma LastLogAppend(a: seq<string>, b: seq<string>)
    ensures LastLog(a + b) == if LastLog(b).Some? then LastLog(b) else LastLog(a)
  {
    AnnouncementsAppend(a, b);
    LastSomeAppend(Announcements(a), Announcements(b));
  }

  /** The text the runner scans: standard output, then standard error, each closed by a
      newline. */
  function Transcript(stdout: string, stderr: string): string {
    stdout + "\n" + stderr + "\n"
  }

  /** An announcement on standard error wins over any on standard output; otherwise the
      last one on standard output is used. */
  lemma TranscriptLog(stdout: string, stderr: string)
    ensures DiscoverLog(Transcript(stdout, stderr)) ==
            if DiscoverLog(stderr).Some? then DiscoverLog(stderr) else DiscoverLog(stdout)
  {
    var text := Transcript(stdout, stderr);
    assert text == stdout + ['\n'] + (stderr + ['\n'] + "");
    SplitConcat(stdout, '\n', stderr + ['\n'] + "", IsLineTerminator);
    SplitConcat(stderr, '\n', "", IsLineTerminator);
    assert Lines(text) == Lines(stdout) + (Lines(stderr) + [""]);
    assert LastLog([""]) == None;
    LastLogAppend(Lines(stderr), [""]);
    LastLogAppend(Lines(stdout), Lines(stderr) + [""]);
  }

  lemma ParseExamplePlain()
    ensures ParseLogLine("log written at: out/a.log") == Some("out/a.log")
  {
    assert "log written at: out/a.log" == "" + Header + " " + "out/a.log" + "";
    assert IsLogPath("out/a.log") by {
      assert "out/a.log"[5..] == LogExt;
      assert "out/a.log"[..5] == "out/a";
    }
    ParseComplete("", Header, " ", "out/a.log", "");
  }

  /** Of two announcements the later one is kept, whatever the case of its header and
      extension, and lines that announce nothing are skipped. */
  lemma LastAnnouncementWins(before: seq<string>, line: string, after: seq<string>)
    requires ParseLogLine(line).Some?
    requires forall i | 0 <= i < |after| :: ParseLogLine(after[i]).None?
    ensures LastLog(before + [line] + after) == ParseLogLine(line)
  {
    assert LastSomeIndex(Announcements([line])) == 0;
    LastLogAppend(before, [line]);
    assert LastSomeIndex(Announcements(after)) == -1;
    LastLogAppend(before + [line], after);
  }
}

=== FILE: mime.dfy ===
/** `encodingFromMime`: how the content of a harvested file is sent back. */
module Mime {
  import opened Strings

  /** The two `Buffer.toString` encodings the runner uses, `"utf8"` and `"base64"`. */
  datatype Encoding = Utf8 | Base64

  /** Text types and JSON travel as UTF-8, everything else as base64. The source tests the
      prefix with `indexOf(...) === 0`, which is exactly "starts with". */
  function EncodingFromMime(mime: string): (e: Encoding)
    ensures e == Utf8 <==> StartsWith(mime, "text/") || mime == "application/json"
  {
    if IndexOf(mime, "text/") == 0 || mime == "application/json" then Utf8 else Base64
  }

  /** The test is case-sensitive and `application/json` must match whole. */
  lemma EncodingExamples()
    ensures EncodingFromMime("text/html") == Utf8
    ensures EncodingFromMime("application/json") == Utf8
    ensures EncodingFromMime("image/png") == Base64
    ensures EncodingFromMime("TEXT/plain") == Base64
    ensures EncodingFromMime("application/json; charset=utf-8") == Base64
  {
    assert "text/html"[..5] == "text/";
    assert "image/png"[..5][0] != "text/"[0];
    assert "TEXT/plain"[..5][0] != "text/"[0];
    assert "application/json; charset=utf-8"[..5][0] != "text/"[0];
  }
}

=== FILE: normalize.dfy ===
/** `xnormalize`: folding a caller-supplied relative path into one that cannot climb
    above the directory it is later joined to. Each `..` cancels the real segment before
    it; one with nothing left to cancel becomes the literal segment `.parent`. */
module PathNormalize {
  import opened Strings

  /** The segment that stands for a parent reference that had nothing to cancel. */
  const Parent: string := ".parent"

  /** Both slash kinds separate segments of an input path. */
  predicate IsPathSep(c: char) {
    c == '/' || c == '\\'
  }

  /** A segment that names a real entry: not empty, not `.` or `..`, no separator. */
  predicate Clean(seg: string) {
    seg != "" && seg != "." && seg != ".." && Free(seg, IsPathSep)
  }

  /** One step of the fold over the stack `roots`. */
  function Step(roots: seq<string>, part: string): seq<string> {
    if part == "" || part == "." then roots
    else if part == ".." then
      if |roots| > 0 && roots[|roots| - 1] != Parent then roots[..|roots| - 1]
      else roots + [Parent]
    else roots + [part]
  }

  /** The stack left after folding `parts` from left to right, starting empty. Segments
      without separators fold into clean segments only. */
  function Fold(parts: seq<string>): (roots: seq<string>)
    ensures (forall i | 0 <= i < |parts| :: Free(parts[i], IsPathSep)) ==>
              forall j | 0 <= j < |roots| :: Clean(roots[j])
    decreases |parts|
  {
    if |parts| == 0 then []
    else
      var init := parts[..|parts| - 1];
      assert forall i | 0 <= i < |init| :: init[i] == parts[i];
      Step(Fold(init), parts[|parts| - 1])
  }

  /** `xnormalize(fpath)`: the empty path stays empty; otherwise split on either slash,
      fold, and join the stack with `/`. */
  function XNormalize(path: string): string {
    if path == "" then "" else Join(Fold(Split(path, IsPathSep)), '/')
  }

  /** The stack `XNormalize` joins; it is empty for the empty path. */
  function Segments(path: string): (roots: seq<string>)
    ensures forall j | 0 <= j < |roots| :: Clean(roots[j])
  {
    if path == "" then [] else Fold(Split(path, IsPathSep))
  }

  /** Folding segments that are already clean keeps every one of them. */
  lemma {:induction false} FoldClean(parts: seq<string>)
    requires forall i | 0 <= i < |parts| :: Clean(parts[i])
    ensures Fold(parts) == parts
    decreases |parts|
  {
    if |parts| > 0 {
      var init := parts[..|parts| - 1];
      FoldClean(init);
      assert parts == init + [parts[|parts| - 1]];
    }
  }

  /** The normalized path splits back into exactly the folded stack. */
  lemma NormalizeSplits(path: string)
    requires XNormalize(path) != ""
    ensures Split(XNormalize(path), IsPathSep) == Segments(path)
  {
    SplitJoin(Segments(path), '/', IsPathSep);
  }

  /** The output of `xnormalize`: empty for the empty path; otherwise every `/`-separated
      segment names a real entry (never empty, `.` or `..`), the path does not start with
      a slash and no backslash survives. */
  lemma NormalizeShape(path: string)
    ensures path == "" ==> XNormalize(path) == ""
    ensures var r := XNormalize(path);
            r != "" ==> r[0] != '/' && forall i | 0 <= i < |Split(r, IsPathSep)| :: Clean(Split(r, IsPathSep)[i])
    ensures var r := XNormalize(path);
            forall k | 0 <= k < |r| :: r[k] != '\\'
  {
    var r := XNormalize(path);
    var roots := Segments(path);
    if r != "" {
      NormalizeSplits(path);
      assert roots[0] <= r;
      assert Clean(roots[0]);
      assert r[0] == roots[0][0];
    }
    JoinFree(roots, '/', c => c == '\\');
  }

  /** `xnormalize` is idempotent: its output is already in normal form. */
  lemma NormalizeIdempotent(path: string)
    ensures XNormalize(XNormalize(path)) == XNormalize(path)
  {
    var r := XNormalize(path);
    if r != "" {
      NormalizeSplits(path);
      FoldClean(Segments(path));
    }
  }

  /** How an operating system resolves the segments `segs` from the directory `dir`
      (a sequence of names below the filesystem root): empty and `.` segments stay put,
      `..` climbs one level and stops at the filesystem root, anything else descends. */
  ghost function Resolve(dir: seq<string>, segs: seq<string>): seq<string>
    decreases |segs|
  {
    if |segs| == 0 then dir else Resolve(Descend(dir, segs[0]), segs[1..])
  }

  /** Where one segment leads from `dir`. */
  ghost function Descend(dir: seq<string>, seg: string): seq<string> {
    if seg == "" || seg == "." then dir
    else if seg == ".." then (if |dir| > 0 then dir[..|dir| - 1] else dir)
    else dir + [seg]
  }

  /** Resolution can equally be read from the last segment backwards. */
  lemma {:induction false} ResolveSnoc(dir: seq<string>, segs: seq<string>, seg: string)
    ensures Resolve(dir, segs + [seg]) == Descend(Resolve(dir, segs), seg)
    decreases |segs|
  {
    if |segs| == 0 {
      assert segs + [seg] == [seg];
    } else {
      assert (segs + [seg])[1..] == segs[1..] + [seg];
      ResolveSnoc(Descend(dir, segs[0]), segs[1..], seg);
    }
  }

  /** Clean segments only ever descend. */
  lemma {:induction false} ResolveClean(dir: seq<string>, segs: seq<string>)
    requires forall i | 0 <= i < |segs| :: Clean(segs[i])
    ensures Resolve(dir, segs) == dir + segs
    decreases |segs|
  {
    if |segs| > 0 {
      ResolveClean(dir + [segs[0]], segs[1..]);
      assert dir + [segs[0]] + segs[1..] == dir + segs;
    }
  }

  /** Containment: resolving a normalized path from any root directory lands at or below
      that root, at exactly the folded stack under it. */
  lemma NormalizeContained(root: seq<string>, path: string)
    ensures Resolve(root, Split(XNormalize(path), IsPathSep)) == root + Segments(path)
    ensures root <= Resolve(root, Split(XNormalize(path), IsPathSep))
  {
    if XNormalize(path) == "" {
      assert Split("", IsPathSep) == [""];
      assert Resolve(root, [""]) == Resolve(root, []);
    } else {
      NormalizeSplits(path);
      ResolveClean(root, Segments(path));
    }
  }

  /** An independent count over the input segments: `up` is the number of `..` that have
      no real segment before them left to cancel, `depth` the number of real segments
      still standing. */
  datatype Balance = Balance(up: nat, depth: nat)

  function Count(parts: seq<string>): Balance
    decreases |parts|
  {
    if |parts| == 0 then Balance(0, 0)
    else
      var b := Count(parts[..|parts| - 1]);
      var part := parts[|parts| - 1];
      if part == "" || part == "." then b
      else if part == ".." then
        if b.depth > 0 then Balance(b.up, b.depth - 1) else Balance(b.up + 1, b.depth)
      else Balance(b.up, b.depth + 1)
  }

  /** When no input segment is literally `.parent`, the `.parent` segments of the folded
      stack are exactly its first `up` entries, one per unmatched `..`, and the real
      segments still standing follow them. */
  lemma {:induction false} FoldParents(parts: seq<string>)
    requires forall i | 0 <= i < |parts| :: parts[i] != Parent
    ensures |Fold(parts)| == Count(parts).up + Count(parts).depth
    ensures forall j | 0 <= j < |Fold(parts)| :: Fold(parts)[j] == Parent <==> j < Count(parts).up
    decreases |parts|
  {
    if |parts| > 0 {
      var init := parts[..|parts| - 1];
      var part := parts[|parts| - 1];
      FoldParents(init);
      var roots := Fold(init);
      var b := Count(init);
      if part == ".." {
        if b.depth > 0 {
          assert roots[|roots| - 1] != Parent;
        } else if |roots| > 0 {
          assert roots[|roots| - 1] == Parent;
        }
      }
    }
  }

  /** `n` copies of the `.parent` segment. */
  function Parents(n: nat): (ps: seq<string>)
    ensures |ps| == n && forall j | 0 <= j < n :: ps[j] == Parent
  {
    seq(n, _ => Parent)
  }

  /** One fold step on a stack of `u` `.parent` segments followed by real names: a `..`
      cancels the last name, or adds a `.parent` when there is none; anything else acts
      on the names as `Descend` does. */
  lemma StepParents(u: nat, rest: seq<string>, part: string)
    requires forall j | 0 <= j < |rest| :: rest[j] != Parent
    requires part != Parent
    ensures Step(Parents(u) + rest, part) ==
            Parents(if part == ".." && rest == [] then u + 1 else u) + Descend(rest, part)
  {
    var roots := Parents(u) + rest;
    if part == ".." {
      if rest != [] {
        assert roots[|roots| - 1] == rest[|rest| - 1];
        assert roots[..|roots| - 1] == Parents(u) + rest[..|rest| - 1];
      } else {
        assert roots == Parents(u);
        assert Parents(u) + [Parent] == Parents(u + 1);
      }
    } else if part != "" && part != "." {
      assert roots + [part] == Parents(u) + (rest + [part]);
    }
  }

  /** When no input segment is literally `.parent`, the fold is one `.parent` per
      unmatched `..`, followed by exactly where the segments lead from an empty start: the
      names still open, each matched `..` having cancelled the name before it. */
  lemma {:induction false} FoldTail(parts: seq<string>)
    requires forall i | 0 <= i < |parts| :: parts[i] != Parent
    ensures Fold(parts) == Parents(Count(parts).up) + Resolve([], parts)
    decreases |parts|
  {
    if |parts| > 0 {
      var init := parts[..|parts| - 1];
      var part := parts[|parts| - 1];
      assert parts == init + [part];
      FoldTail(init);
      FoldParents(init);
      ResolveSnoc([], init, part);
      var u := Count(init).up;
      var rest := Resolve([], init);
      assert |rest| == Count(init).depth;
      assert forall j | 0 <= j < |rest| :: rest[j] == Fold(init)[u + j];
      StepParents(u, rest, part);
    }
  }

  /** A path written as separator-free segments folds those very segments. The only
      such path that is empty is the join of nothing or of one empty piece, and both
      fold to nothing. */
  lemma SegmentsOfJoin(parts: seq<string>)
    requires forall i | 0 <= i < |parts| :: Free(parts[i], IsPathSep)
    ensures Segments(Join(parts, '/')) == Fold(parts)
  {
    if |parts| > 0 {
      SplitJoin(parts, '/', IsPathSep);
      if Join(parts, '/') == "" {
        assert Split("", IsPathSep) == [""];
        assert parts == [""];
        assert Fold(parts) == Step(Fold([]), "");
      }
    }
  }

  /** Normalizing a `/`-join of separator-free pieces is joining their fold, so the
      examples below carry over to the strings they spell. */
  lemma NormalizeJoin(parts: seq<string>)
    requires forall i | 0 <= i < |parts| :: Free(parts[i], IsPathSep)
    ensures XNormalize(Join(parts, '/')) == Join(Fold(parts), '/')
  {
    SegmentsOfJoin(parts);
  }

  /** When no `..` climbs past the start and no segment is literally `.parent`, the fold
      is exactly where the segments lead: resolving them from any directory descends to
      the folded stack under it. */
  lemma {:induction false} ResolveFold(root: seq<string>, parts: seq<string>)
    requires forall i | 0 <= i < |parts| :: parts[i] != Parent
    requires Count(parts).up == 0
    ensures Resolve(root, parts) == root + Fold(parts)
    decreases |parts|
  {
    if |parts| == 0 {
      assert root + [] == root;
    } else {
      var init := parts[..|parts| - 1];
      var part := parts[|parts| - 1];
      assert parts == init + [part];
      assert Count(init).up <= Count(parts).up;
      ResolveFold(root, init);
      FoldParents(init);
      ResolveSnoc(root, init, part);
      var roots := Fold(init);
      if part == ".." {
        assert Count(init).depth > 0;
        assert roots[|roots| - 1] != Parent;
        assert (root + roots)[..|root + roots| - 1] == root + roots[..|roots| - 1];
      } else if part != "" && part != "." {
        assert root + roots + [part] == root + (roots + [part]);
      }
    }
  }

  /** Normalizing a path that never climbs past its start and names no `.parent`
      segment does not change where it leads from any directory. */
  lemma NormalizeKeepsTarget(root: seq<string>, path: string)
    requires forall i | 0 <= i < |Split(path, IsPathSep)| :: Split(path, IsPathSep)[i] != Parent
    requires Count(Split(path, IsPathSep)).up == 0
    ensures Resolve(root, Split(XNormalize(path), IsPathSep)) == Resolve(root, Split(path, IsPathSep))
  {
    NormalizeContained(root, path);
    ResolveFold(root, Split(path, IsPathSep));
    if path == "" {
      assert Split("", IsPathSep) == [""];
      assert Fold([""]) == Step(Fold([]), "");
    }
  }

  /** `a/b/../c`: the matched `..` cancels `b`. */
  lemma FoldExampleCancel()
    ensures Fold(["a", "b", "..", "c"]) == ["a", "c"]
  {
    var p := ["a", "b", "..", "c"];
    assert p[..3][..2][..1] == ["a"];
    assert Fold(["a"]) == ["a"];
    assert Fold(p[..3][..2]) == ["a", "b"];
    assert Fold(p[..3]) == ["a"];
  }

  /** `../../secret`: both unmatched `..` become `.parent`, so the result stays inside. */
  lemma FoldExampleEscape()
    ensures Fold(["..", "..", "secret"]) == [Parent, Parent, "secret"]
  {
    var p := ["..", "..", "secret"];
    assert p[..2][..1] == [".."];
    assert Fold([".."]) == [Parent];
    assert Fold(p[..2]) == [Parent, Parent];
  }

  /** `x/.parent/..`: a literal `.parent` is kept as a segment, yet the `..` after it
      does not cancel it, which is why the prefix property of `FoldParents` needs its
      precondition. */
  lemma FoldExampleLiteral()
    ensures Fold(["x", Parent, ".."]) == ["x", Parent, Parent]
  {
    var p := ["x", Parent, ".."];
    assert p[..2][..1] == ["x"];
    assert Fold(["x"]) == ["x"];
    assert Fold(p[..2]) == ["x", Parent];
  }
}

=== FILE: results.dfy ===
/** `Option` and `Result`, shared by the whole model. */
module Results {

  /** A value that may be absent: `undefined`, `null` or a failed match. */
  datatype Option<+T> = None | Some(value: T)

  /** The outcome of a step that can throw: a value, or the error it raised. */
  datatype Result<+R, +E> = Success(value: R) | Failure(error: E)
}

=== FILE: runner.dfy ===
/** Running one build (`madokoRun`, `madokoRunIn`, `madokoExec`): the parameter defaults,
    the session directory, the flag, timeout and command strings, and the order of the
    steps. The sandbox check, the MIME lookup and the process execution are services
    passed in; writing the caller's files and removing the session afterwards are not
    modelled. */
module Runner {
  import opened Results
  import opened Strings
  import opened LogScan
  import opened Harvest
  import opened Mime
  import opened SessionName

  /** Flags every run passes after the mode flags. */
  const StdFlags: string := "--odir=" + OutDir + " --sandbox"

  /** Flags every run passes first; the embedding limit follows. */
  const CommonFlags: string := " -vv" + " --verbose-max=0" + " -mmath-embed:512" + " -membed:"

  /** `maxBuffer` of the child process, in bytes. */
  const MaxBuffer: int := 512 * 1024

  /** The timeout used when the configured one is missing or zero, in milliseconds. */
  const DefaultTimeout: int := 10000

  const DefaultDocname: string := "document.mdk"

  // ---------------------------------------------------------------------------
  // Configuration and parameters
  // ---------------------------------------------------------------------------

  /** `config.limits`; a timeout of `None` is an absent field. */
  datatype Limits = Limits(fileSize: int, timeoutPdf: Option<int>, timeoutMath: Option<int>, rmdirDelay: int)

  /** `config.run` is the compiler command, `config.rundir` the parent of all sessions. */
  datatype Config = Config(limits: Limits, run: string, rundir: string)

  /** A file the caller wants written into the session before the run. */
  datatype VirtualFile = VirtualFile(path: string, content: string, encoding: string)

  /** `params`; `None` is an absent field. */
  datatype Params = Params(docname: Option<string>, files: Option<seq<VirtualFile>>, pdf: Option<bool>)

  /** `params.docname || "document.mdk"`: an absent or empty name takes the default. */
  function DocnameOf(params: Params): (docname: string)
    ensures docname != ""
    ensures params.docname.Some? && params.docname.value != "" ==> docname == params.docname.value
    ensures params.docname.None? || params.docname.value == "" ==> docname == DefaultDocname
  {
    match params.docname
    case Some(d) => if d != "" then d else DefaultDocname
    case None => DefaultDocname
  }

  /** `params.files || []`: an array, even an empty one, is kept. */
  function FilesOf(params: Params): seq<VirtualFile> {
    match params.files
    case Some(fs) => fs
    case None => []
  }

  /** `params.pdf || false`. */
  function PdfOf(params: Params): bool {
    match params.pdf
    case Some(b) => b
    case None => false
  }

  // ---------------------------------------------------------------------------
  // Flags, timeout and command line
  // ---------------------------------------------------------------------------

  /** The mode flags: a PDF build embeds up to 512 and asks for `--pdf`, a math-only
      build embeds nothing. */
  function Flags(pdf: bool): string {
    CommonFlags + (if pdf then "512" else "0") + (if pdf then " --pdf" else "")
  }

  /** A PDF build passes `-membed:512 --pdf` where any other build passes `-membed:0`
      and no `--pdf` anywhere; the two flag strings agree on everything before the
      embedding limit. */
  lemma FlagsShape()
    ensures StartsWith(Flags(false), CommonFlags) && StartsWith(Flags(true), CommonFlags)
    ensures Flags(false) == CommonFlags + "0"
    ensures Flags(true) == Flags(false)[..|Flags(false)| - 1] + "512 --pdf"
    ensures forall i :: !OccursAt(Flags(false), "--pdf", i)
    ensures EndsWith(Flags(true), " --pdf")
  {
    assert Flags(false) == CommonFlags + "0";
    assert 'p' !in " -vv" && 'p' !in " --verbose-max=0" && 'p' !in " -mmath-embed:512" && 'p' !in " -membed:";
    assert 'p' !in Flags(false);
    forall i ensures !OccursAt(Flags(false), "--pdf", i) {
      if 0 <= i && i + 5 <= |Flags(false)| {
        assert Flags(false)[i..i + 5][2] == Flags(false)[i + 2];
      }
    }
  }

  /** `timeout || 10000`: a missing or zero timeout takes the default, so the compiler
      never runs with Node's "no timeout" value 0. */
  function EffectiveTimeout(t: Option<int>): (ms: int)
    ensures ms != 0
    ensures t.Some? && t.value != 0 ==> ms == t.value
    ensures t.None? || t.value == 0 ==> ms == DefaultTimeout
  {
    match t
    case Some(v) => if v != 0 then v else DefaultTimeout
    case None => DefaultTimeout
  }

  /** The configured timeout for the build mode. */
  function ModeTimeout(limits: Limits, pdf: bool): Option<int> {
    if pdf then limits.timeoutPdf else limits.timeoutMath
  }

  /** The shell command: program, mode flags, standard flags, quoted document name. */
  function Command(program: string, flags: string, docname: string): string {
    program + " " + flags + " " + StdFlags + " \"" + docname + "\""
  }

  /** The command starts with the program and ends with a space, the flags, the standard
      flags and the quoted name, each after one space, and holds nothing else between. */
  lemma CommandShape(program: string, flags: string, docname: string)
    ensures StartsWith(Command(program, flags, docname), program + " ")
    ensures EndsWith(Command(program, flags, docname), " " + flags + " " + StdFlags + " \"" + docname + "\"")
    ensures |Command(program, flags, docname)| == |program| + |" " + flags + " " + StdFlags + " \"" + docname + "\""|
  {
    var cmd := Command(program, flags, docname);
    var tail := " " + flags + " " + StdFlags + " \"" + docname + "\"";
    assert cmd == program + tail;
    assert cmd[..|program + " "|] == program + " ";
    assert cmd[|cmd| - |tail|..] == tail;
  }

  /** The text between the last two double quotes of a command that ends in one: the
      quoted last word, read textually. A shell would still expand `$`, backquotes and
      backslashes inside it. */
  function LastQuoted(cmd: string): (arg: Option<string>)
    ensures arg.Some? ==> '"' !in arg.value
  {
    if |cmd| < 2 || cmd[|cmd| - 1] != '"' then None
    else
      var open := LastIndexOf(cmd[..|cmd| - 1], '"');
      if open < 0 then None
      else
        assert forall k | open + 1 <= k < |cmd| - 1 :: cmd[..|cmd| - 1][k] == cmd[k];
        Some(cmd[open + 1..|cmd| - 1])
  }

  /** The quoted last word of the command is the document name exactly when the name
      holds no double quote; a name with one is cut at it. */
  lemma CommandQuoting(program: string, flags: string, docname: string)
    ensures LastQuoted(Command(program, flags, docname)) == Some(docname) <==> '"' !in docname
  {
    var head := program + " " + flags + " " + StdFlags + " ";
    assert Command(program, flags, docname) == head + "\"" + docname + "\"";
    QuotedLast(head, docname);
  }

  /** Whatever precedes it, a double-quoted word at the end is read back as itself when it
      holds no double quote. */
  lemma QuotedLast(head: string, word: string)
    ensures LastQuoted(head + "\"" + word + "\"") == Some(word) <==> '"' !in word
  {
    var cmd := head + "\"" + word + "\"";
    if '"' !in word {
      var inner := cmd[..|cmd| - 1];
      assert inner == head + "\"" + word;
      assert inner[|head|] == '"';
      assert forall k | |head| < k < |inner| :: inner[k] == word[k - |head| - 1];
      assert LastIndexOf(inner, '"') == |head|;
      assert cmd[|head| + 1..|cmd| - 1] == word;
    }
  }

  /** What `madokoExec` asks of the process service. */
  datatype ExecRequest = ExecRequest(command: string, cwd: string, timeout: int, maxBuffer: int)

  /** The request for one build: the compiler runs in the session directory, with the
      mode's timeout (never 0) and a 512 KiB output buffer; the command is the program,
      the mode flags, the standard flags and the document name in double quotes. */
  function RequestFor(config: Config, userpath: string, docname: string, pdf: bool): (req: ExecRequest)
    ensures req.cwd == userpath && req.maxBuffer == 524288 && req.timeout != 0
    ensures pdf ==> req.timeout == EffectiveTimeout(config.limits.timeoutPdf)
    ensures !pdf ==> req.timeout == EffectiveTimeout(config.limits.timeoutMath)
    ensures StartsWith(req.command, config.run + " ")
    ensures EndsWith(req.command, " " + Flags(pdf) + " " + StdFlags + " \"" + docname + "\"")
    ensures |req.command| == |config.run| + |" " + Flags(pdf) + " " + StdFlags + " \"" + docname + "\""|
    ensures '"' !in docname ==> LastQuoted(req.command) == Some(docname)
  {
    var cmd := Command(config.run, Flags(pdf), docname);
    CommandQuoting(config.run, Flags(pdf), docname);
    CommandShape(config.run, Flags(pdf), docname);
    ExecRequest(cmd, userpath, EffectiveTimeout(ModeTimeout(config.limits, pdf)), MaxBuffer)
  }

  // ---------------------------------------------------------------------------
  // The run
  // ---------------------------------------------------------------------------

  /** What the process service reports: the captured output and, on a normal exit, the
      session directory as the compiler left it. */
  datatype ExecResult =
    | Exited(stdout: string, stderr: string, produced: FileMap)
    | ExecFailed(stdout: string, stderr: string)

  /** The collaborators: `Sandbox.getSafePath` succeeding (by session directory and
      path), `config.mime.lookup`, and `Cp.exec`. */
  datatype Services = Services(
    safe: (string, string) -> bool,
    mimeOf: string -> string,
    exec: ExecRequest -> ExecResult)

  datatype RunOutput = RunOutput(files: seq<OutputFile>, stdout: string, stderr: string)

  function Paths(files: seq<VirtualFile>): (paths: seq<string>)
    ensures |paths| == |files| && forall i | 0 <= i < |files| :: paths[i] == files[i].path
  {
    seq(|files|, i requires 0 <= i < |files| => files[i].path)
  }

  /** Every file of a run's answer is non-empty, was produced in the session directory
      under one of the harvested names, and was read in full within the size limit. */
  predicate Harvested(files: seq<OutputFile>, produced: FileMap, limit: int, mimeOf: string -> string, names: seq<string>) {
    forall f | f in files ::
      |f.content| > 0 && f.path in names && f.path in produced &&
      produced[f.path].size <= limit && produced[f.path].data == Some(f.content) &&
      f.mime == mimeOf(f.path) && f.encoding == EncodingFromMime(f.mime)
  }

  /** The names harvested after a run that printed `out` and `err`. */
  function NamesAfter(docname: string, pdf: bool, out: string, err: string, safe: string -> bool): seq<string> {
    HarvestNames(docname, pdf, DiscoverLog(Transcript(out, err)), safe)
  }

  /** A harvest of `names` goes through: the sandbox accepts every name and no file is
      over the size limit. */
  predicate Harvestable(produced: FileMap, limit: int, safe: string -> bool, names: seq<string>) {
    (forall i | 0 <= i < |names| :: safe(names[i])) &&
    (forall i | 0 <= i < |names| :: !TooLarge(produced, limit, names[i]))
  }

  /** Harvest `names` from the session directory and keep the non-empty entries, passing
      the compiler's output through. It succeeds exactly when the harvest can, and then
      answers one file per readable name, in name order. */
  function HarvestOutput(limit: int, mimeOf: string -> string, safe: string -> bool, names: seq<string>,
                         out: string, err: string, produced: FileMap): (r: Result<RunOutput, Error>)
    ensures r.Success? <==> Harvestable(produced, limit, safe, names)
    ensures r.Success? ==> r.value.stdout == out && r.value.stderr == err
    ensures r.Success? ==> Harvested(r.value.files, produced, limit, mimeOf, names)
    ensures r.Success? ==> OutputPaths(r.value.files) == ReadableNames(produced, limit, names)
    ensures r.Failure? ==> r.error.SandboxViolation? || r.error.FileTooLarge?
    ensures r.Failure? && r.error.SandboxViolation? ==> FirstUnsafe(names, safe) == Some(r.error.path)
    ensures (forall i | 0 <= i < |names| :: safe(names[i])) && r.Failure? ==>
              exists i | 0 <= i < |names| :: TooLarge(produced, limit, names[i]) && r.error == FileTooLarge(names[i])
  {
    match Harvest.Harvest(produced, limit, mimeOf, safe, names)
    case Failure(e) => Failure(e)
    case Success(entries) =>
      HarvestKept(produced, limit, mimeOf, safe, names);
      HarvestPaths(produced, limit, mimeOf, safe, names);
      Success(RunOutput(KeepNonEmpty(entries), out, err))
  }

  /** What follows a normal exit: harvest the candidates and the announced log, as
      `HarvestOutput` does for any list of names. */
  function Collect(limit: int, mimeOf: string -> string, safe: string -> bool, docname: string, pdf: bool,
                   out: string, err: string, produced: FileMap): (r: Result<RunOutput, Error>)
    ensures r.Success? <==> Harvestable(produced, limit, safe, NamesAfter(docname, pdf, out, err, safe))
    ensures r.Success? ==> r.value.stdout == out && r.value.stderr == err
    ensures r.Success? ==> Harvested(r.value.files, produced, limit, mimeOf, NamesAfter(docname, pdf, out, err, safe))
    ensures r.Success? ==>
              OutputPaths(r.value.files) == ReadableNames(produced, limit, NamesAfter(docname, pdf, out, err, safe))
    ensures r.Success? ==> Answers(r.value, Exited(out, err, produced), limit, mimeOf, safe, docname, pdf)
    ensures r.Failure? ==> r.error.SandboxViolation? || r.error.FileTooLarge?
    ensures var names := NamesAfter(docname, pdf, out, err, safe);
            r.Failure? && r.error.SandboxViolation? ==> FirstUnsafe(names, safe) == Some(r.error.path)
    ensures var names := NamesAfter(docname, pdf, out, err, safe);
            (forall i | 0 <= i < |names| :: safe(names[i])) && r.Failure? ==>
              exists i | 0 <= i < |names| :: TooLarge(produced, limit, names[i]) && r.error == FileTooLarge(names[i])
  {
    HarvestOutput(limit, mimeOf, safe, NamesAfter(docname, pdf, out, err, safe), out, err, produced)
  }

  /** `out` is the answer to a run that exited normally with `res`: the compiler's output
      passed through, and exactly the readable harvested files, in name order, each with
      its content, MIME type and encoding. */
  predicate Answers(out: RunOutput, res: ExecResult, limit: int, mimeOf: string -> string, safe: string -> bool,
                    docname: string, pdf: bool) {
    res.Exited? && out.stdout == res.stdout && out.stderr == res.stderr &&
    var names := NamesAfter(docname, pdf, res.stdout, res.stderr, safe);
    Harvested(out.files, res.produced, limit, mimeOf, names) &&
    OutputPaths(out.files) == ReadableNames(res.produced, limit, names)
  }

  /** `Sandbox.getSafePath` for one session directory. */
  function SafeIn(services: Services, userpath: string): string -> bool {
    p => services.safe(userpath, p)
  }

  /** The sandbox accepts every path of the caller's files and the document name. */
  predicate InputsSafe(services: Services, userpath: string, docname: string, files: seq<VirtualFile>) {
    (forall i | 0 <= i < |files| :: services.safe(userpath, files[i].path)) && services.safe(userpath, docname)
  }

  /** When a run answers: its inputs pass the sandbox, the compiler exits normally, and
      the harvest of what it left goes through. */
  predicate Succeeds(config: Config, userpath: string, docname: string, files: seq<VirtualFile>, pdf: bool,
                     services: Services) {
    InputsSafe(services, userpath, docname, files) &&
    var res := services.exec(RequestFor(config, userpath, docname, pdf));
    res.Exited? &&
    Harvestable(res.produced, config.limits.fileSize, SafeIn(services, userpath),
                NamesAfter(docname, pdf, res.stdout, res.stderr, SafeIn(services, userpath)))
  }

  /** `madokoRunIn`: check each path of the caller's files through the sandbox (writing
      them is not modelled), check the document name, run the compiler, harvest, and keep the non-empty entries. A failed
      run carries its output; a failed harvest does not. */
  function RunIn(config: Config, userpath: string, docname: string, files: seq<VirtualFile>, pdf: bool, services: Services)
    : (r: Result<RunOutput, Error>)
    ensures r.Success? <==> Succeeds(config, userpath, docname, files, pdf, services)
    ensures !InputsSafe(services, userpath, docname, files) ==> r.Failure? && r.error.SandboxViolation?
    ensures InputsSafe(services, userpath, docname, files) ==>
              match services.exec(RequestFor(config, userpath, docname, pdf))
              case ExecFailed(out, err) => r == Failure(ProcessFailed(out, err))
              case Exited(out, err, produced) =>
                r == Collect(config.limits.fileSize, services.mimeOf, SafeIn(services, userpath), docname, pdf, out, err, produced)
    ensures r.Failure? && r.error.ProcessFailed? ==>
              services.exec(RequestFor(config, userpath, docname, pdf)) == ExecFailed(r.error.stdout, r.error.stderr)
    ensures r.Success? ==>
              Answers(r.value, services.exec(RequestFor(config, userpath, docname, pdf)), config.limits.fileSize,
                      services.mimeOf, SafeIn(services, userpath), docname, pdf)
  {
    var safe := SafeIn(services, userpath);
    match FirstUnsafe(Paths(files), safe)
    case Some(bad) => Failure(SandboxViolation(bad))
    case None =>
      if !services.safe(userpath, docname) then Failure(SandboxViolation(docname))
      else
        match services.exec(RequestFor(config, userpath, docname, pdf))
        case ExecFailed(out, err) => Failure(ProcessFailed(out, err))
        case Exited(out, err, produced) =>
          Collect(config.limits.fileSize, services.mimeOf, safe, docname, pdf, out, err, produced)
  }

  /** The session directory of a request made at `time` (ISO text `isoTime`). */
  function SessionPath(config: Config, isoTime: string, time: int): string {
    Combine(config.rundir, SessionDir(isoTime, time))
  }

  /** `madokoRun`: apply the parameter defaults, name the session directory from the
      clock, and run in it. The answer is the run's, passed on unchanged: its success
      condition, its output and files, and which failure each case gives. */
  function Run(config: Config, params: Params, isoTime: string, time: int, services: Services)
    : (r: Result<RunOutput, Error>)
    ensures r == RunIn(config, SessionPath(config, isoTime, time), DocnameOf(params), FilesOf(params), PdfOf(params), services)
    ensures r.Success? <==>
              Succeeds(config, SessionPath(config, isoTime, time), DocnameOf(params), FilesOf(params), PdfOf(params), services)
    ensures r.Success? ==> forall f | f in r.value.files :: |f.content| > 0
    ensures var userpath := SessionPath(config, isoTime, time);
            r.Success? ==>
              Answers(r.value, services.exec(RequestFor(config, userpath, DocnameOf(params), PdfOf(params))),
                      config.limits.fileSize, services.mimeOf, SafeIn(services, userpath), DocnameOf(params), PdfOf(params))
    ensures var userpath := SessionPath(config, isoTime, time);
            !InputsSafe(services, userpath, DocnameOf(params), FilesOf(params)) ==> r.Failure? && r.error.SandboxViolation?
    ensures var userpath := SessionPath(config, isoTime, time);
            var res := services.exec(RequestFor(config, userpath, DocnameOf(params), PdfOf(params)));
            InputsSafe(services, userpath, DocnameOf(params), FilesOf(params)) && res.ExecFailed? ==>
              r == Failure(ProcessFailed(res.stdout, res.stderr))
    ensures var userpath := SessionPath(config, isoTime, time);
            r.Failure? && r.error.ProcessFailed? ==>
              services.exec(RequestFor(config, userpath, DocnameOf(params), PdfOf(params))) ==
                ExecFailed(r.error.stdout, r.error.stderr)
  {
    RunIn(config, SessionPath(config, isoTime, time), DocnameOf(params), FilesOf(params), PdfOf(params), services)
  }
}

=== FILE: session.dfy ===
/** Naming a session directory: the calendar date of the request, a dash, and the
    millisecond timestamp in upper-case hexadecimal (`getTime().toString(16).toUpperCase()`).
    The clock itself is an input. */
module SessionName {

  const HexDigits: string := "0123456789ABCDEF"

  predicate IsHexDigit(c: char) {
    '0' <= c <= '9' || 'A' <= c <= 'F'
  }

  function DigitValue(c: char): nat {
    if '0' <= c <= '9' then c as int - '0' as int
    else if 'A' <= c <= 'F' then c as int - 'A' as int + 10
    else 0
  }

  /** The digit for `d`: a hexadecimal digit that reads back as `d`. */
  function Digit(d: nat): (c: char)
    requires d < 16
    ensures IsHexDigit(c) && DigitValue(c) == d
  {
    HexDigits[d]
  }

  /** Upper-case hexadecimal without leading zeros. */
  function Hex(n: nat): (s: string)
    ensures |s| > 0
    ensures forall k | 0 <= k < |s| :: IsHexDigit(s[k])
    decreases n
  {
    if n < 16 then [Digit(n)] else Hex(n / 16) + [Digit(n % 16)]
  }

  /** Reads upper-case hexadecimal back. */
  function ParseHex(s: string): nat
    decreases |s|
  {
    if |s| == 0 then 0 else 16 * ParseHex(s[..|s| - 1]) + DigitValue(s[|s| - 1])
  }

  /** Rendering then reading gives the number back, so the rendering is injective. */
  lemma {:induction false} HexRoundTrip(n: nat)
    ensures ParseHex(Hex(n)) == n
    decreases n
  {
    if n >= 16 {
      HexRoundTrip(n / 16);
      var s := Hex(n);
      assert s[..|s| - 1] == Hex(n / 16);
    }
  }

  /** `t.toString(16).toUpperCase()`: a minus sign in front of negative values. */
  function TimeHex(t: int): string {
    if t < 0 then "-" + Hex(-t) else Hex(t)
  }

  /** Reads a rendered timestamp back, sign included. */
  function ParseTimeHex(s: string): int {
    if |s| > 0 && s[0] == '-' then -(ParseHex(s[1..]) as int) else ParseHex(s)
  }

  /** A negative timestamp: the sign, then the magnitude. */
  lemma NegRoundTrip(t: int)
    requires t < 0
    ensures ParseTimeHex(TimeHex(t)) == t
  {
    var h := Hex(-t);
    HexRoundTrip(-t);
    var s := "-" + h;
    assert s[1..] == h;
  }

  /** A non-negative timestamp: the digits alone, none of which is a sign. */
  lemma PosRoundTrip(t: int)
    requires t >= 0
    ensures ParseTimeHex(TimeHex(t)) == t
  {
    var h := Hex(t);
    HexRoundTrip(t);
    assert IsHexDigit(h[0]);
  }

  /** Rendering a timestamp then reading it gives it back. */
  lemma TimeHexRoundTrip(t: int)
    ensures ParseTimeHex(TimeHex(t)) == t
  {
    if t < 0 { NegRoundTrip(t); } else { PosRoundTrip(t); }
  }

  /** Distinct timestamps render differently. */
  lemma TimeHexInjective(a: int, b: int)
    requires TimeHex(a) == TimeHex(b)
    ensures a == b
  {
    TimeHexRoundTrip(a);
    TimeHexRoundTrip(b);
  }

  /** `toISOString().substr(0, 10) + "-" + hex(getTime())`. */
  function SessionDir(isoTime: string, time: int): string {
    (if |isoTime| <= 10 then isoTime else isoTime[..10]) + "-" + TimeHex(time)
  }

  /** Requests made at different milliseconds get different session directories, whatever
      their dates. */
  lemma SessionDirsDistinct(iso1: string, t1: int, iso2: string, t2: int)
    requires |iso1| >= 10 && |iso2| >= 10
    requires t1 != t2
    ensures SessionDir(iso1, t1) != SessionDir(iso2, t2)
  {
    if SessionDir(iso1, t1) == SessionDir(iso2, t2) {
      assert SessionDir(iso1, t1)[11..] == TimeHex(t1);
      assert SessionDir(iso2, t2)[11..] == TimeHex(t2);
      TimeHexInjective(t1, t2);
    }
  }
}

=== FILE: strings.dfy ===
/** String primitives of the JavaScript runtime that the build runner relies on:
    `split` on a character class, `join`, `indexOf`, `lastIndexOf`, and skipping runs of
    characters as a pattern like `[ \t]*` does. */
module Strings {

  /** No character of `w` satisfies `isSep`. */
  predicate Free(w: string, isSep: char -> bool) {
    forall k | 0 <= k < |w| :: !isSep(w[k])
  }

  /** Every character of `w` satisfies `keep`. */
  predicate All(w: string, keep: char -> bool) {
    forall k | 0 <= k < |w| :: keep(w[k])
  }

  /** `s.split(/[...]/)`: the maximal separator-free pieces of `s`, left to right, empty
      pieces included; the empty string splits into a single empty piece. */
  function Split(s: string, isSep: char -> bool): (parts: seq<string>)
    ensures |parts| >= 1
    ensures forall i | 0 <= i < |parts| :: Free(parts[i], isSep)
    decreases |s|
  {
    if |s| == 0 then [""]
    else
      var rest := Split(s[1..], isSep);
      if isSep(s[0]) then [""] + rest
      else [[s[0]] + rest[0]] + rest[1..]
  }

  /** `parts.join(sep)`. */
  function Join(parts: seq<string>, sep: char): (s: string)
    ensures |parts| > 0 ==> parts[0] <= s
    decreases |parts|
  {
    if |parts| == 0 then ""
    else if |parts| == 1 then parts[0]
    else parts[0] + [sep] + Join(parts[1..], sep)
  }

  /** A separator-free prefix glues onto the first piece of what follows it. */
  lemma {:induction false} SplitPrefix(p: string, t: string, isSep: char -> bool)
    requires Free(p, isSep)
    ensures Split(p + t, isSep) == [p + Split(t, isSep)[0]] + Split(t, isSep)[1..]
    decreases |p|
  {
    if |p| == 0 {
      assert p + t == t;
      var st := Split(t, isSep);
      assert p + st[0] == st[0];
      assert st == [st[0]] + st[1..];
    } else {
      assert (p + t)[1..] == p[1..] + t;
      assert Free(p[1..], isSep) by {
        forall k | 0 <= k < |p[1..]| ensures !isSep(p[1..][k]) {
          assert p[1..][k] == p[k + 1];
        }
      }
      SplitPrefix(p[1..], t, isSep);
      assert [p[0]] + (p[1..] + Split(t, isSep)[0]) == p + Split(t, isSep)[0];
    }
  }

  /** Splitting at a separator is splitting each side. */
  lemma {:induction false} SplitConcat(a: string, c: char, b: string, isSep: char -> bool)
    requires isSep(c)
    ensures Split(a + [c] + b, isSep) == Split(a, isSep) + Split(b, isSep)
    decreases |a|
  {
    if |a| == 0 {
      assert a + [c] + b == [c] + b;
      assert ([c] + b)[1..] == b;
    } else {
      assert (a + [c] + b)[0] == a[0];
      assert (a + [c] + b)[1..] == a[1..] + [c] + b;
      SplitConcat(a[1..], c, b, isSep);
    }
  }

  /** Splitting a join of separator-free pieces gives the pieces back. */
  lemma {:induction false} SplitJoin(parts: seq<string>, sep: char, isSep: char -> bool)
    requires |parts| >= 1 && isSep(sep)
    requires forall i | 0 <= i < |parts| :: Free(parts[i], isSep)
    ensures Split(Join(parts, sep), isSep) == parts
    decreases |parts|
  {
    if |parts| == 1 {
      SplitPrefix(parts[0], "", isSep);
      assert parts[0] + "" == parts[0];
    } else {
      var rest := Join(parts[1..], sep);
      SplitJoin(parts[1..], sep, isSep);
      assert parts[0] + [sep] + rest == parts[0] + ([sep] + rest);
      SplitPrefix(parts[0], [sep] + rest, isSep);
      assert ([sep] + rest)[1..] == rest;
      assert Split([sep] + rest, isSep) == [""] + parts[1..];
      assert parts[0] + "" == parts[0];
      assert parts == [parts[0]] + parts[1..];
    }
  }

  /** Joining the pieces of a split with the only separator the string uses restores it. */
  lemma {:induction false} JoinSplit(s: string, sep: char, isSep: char -> bool)
    requires forall k | 0 <= k < |s| :: isSep(s[k]) ==> s[k] == sep
    ensures Join(Split(s, isSep), sep) == s
    decreases |s|
  {
    if |s| > 0 {
      var rest := Split(s[1..], isSep);
      JoinSplit(s[1..], sep, isSep);
      if isSep(s[0]) {
        assert ([""] + rest)[1..] == rest;
        assert s == [sep] + s[1..];
      } else if |rest| == 1 {
        assert s == [s[0]] + s[1..];
      } else {
        var parts := [[s[0]] + rest[0]] + rest[1..];
        assert parts[1..] == rest[1..];
        assert s == [s[0]] + s[1..];
      }
    }
  }

  /** Joining pieces free of a character class with a separator outside it stays free of it. */
  lemma {:induction false} JoinFree(parts: seq<string>, sep: char, bad: char -> bool)
    requires !bad(sep)
    requires forall i | 0 <= i < |parts| :: Free(parts[i], bad)
    ensures Free(Join(parts, sep), bad)
    decreases |parts|
  {
    if |parts| > 1 {
      JoinFree(parts[1..], sep, bad);
      var j := parts[0] + [sep] + Join(parts[1..], sep);
      forall k | 0 <= k < |j| ensures !bad(j[k]) {
        if k < |parts[0]| {
          assert j[k] == parts[0][k];
        } else if k > |parts[0]| {
          assert j[k] == Join(parts[1..], sep)[k - |parts[0]| - 1];
        }
      }
    }
  }

  predicate StartsWith(s: string, prefix: string) {
    |prefix| <= |s| && s[..|prefix|] == prefix
  }

  predicate EndsWith(s: string, suffix: string) {
    |suffix| <= |s| && s[|s| - |suffix|..] == suffix
  }

  /** `pat` occurs in `s` starting at index `i`. */
  predicate OccursAt(s: string, pat: string, i: int) {
    0 <= i && i + |pat| <= |s| && s[i..i + |pat|] == pat
  }

  /** `s.indexOf(pat)`: the first index where `pat` occurs, or -1 when it occurs nowhere. */
  function IndexOf(s: string, pat: string): (r: int)
    ensures r >= 0 ==> OccursAt(s, pat, r) && forall i | 0 <= i < r :: !OccursAt(s, pat, i)
    ensures r < 0 ==> r == -1 && forall i | 0 <= i <= |s| :: !OccursAt(s, pat, i)
    decreases |s|
  {
    if |s| < |pat| then -1
    else if s[..|pat|] == pat then 0
    else
      var r := IndexOf(s[1..], pat);
      assert forall i | 1 <= i <= |s| :: OccursAt(s, pat, i) <==> OccursAt(s[1..], pat, i - 1) by {
        forall i | 1 <= i <= |s| ensures OccursAt(s, pat, i) <==> OccursAt(s[1..], pat, i - 1) {
          if i + |pat| <= |s| {
            assert s[1..][i - 1..i - 1 + |pat|] == s[i..i + |pat|];
          }
        }
      }
      if r < 0 then -1 else r + 1
  }

  /** `s.lastIndexOf(c)`: the last index holding `c`, or -1. */
  function LastIndexOf(s: string, c: char): (r: int)
    ensures -1 <= r < |s|
    ensures r >= 0 ==> s[r] == c
    ensures forall k | r < k < |s| :: s[k] != c
  {
    if |s| == 0 then -1
    else if s[|s| - 1] == c then |s| - 1
    else LastIndexOf(s[..|s| - 1], c)
  }

  /** The index of the first character at or after `from` that does not satisfy `drop`
      (`|s|` when there is none): where a pattern like `[ \t]*` stops. */
  function SkipWhile(s: string, drop: char -> bool, from: nat): (k: nat)
    requires from <= |s|
    ensures from <= k <= |s|
    ensures forall i | from <= i < k :: drop(s[i])
    ensures k < |s| ==> !drop(s[k])
    decreases |s| - from
  {
    if from < |s| && drop(s[from]) then SkipWhile(s, drop, from + 1) else from
  }

  /** The index just past the last character before `stop` that does not satisfy `drop`
      (0 when there is none): where trailing padding starts. */
  function SkipBackWhile(s: string, drop: char -> bool, stop: nat): (k: nat)
    requires stop <= |s|
    ensures k <= stop
    ensures forall i | k <= i < stop :: drop(s[i])
    ensures k > 0 ==> !drop(s[k - 1])
    decreases stop
  {
    if stop > 0 && drop(s[stop - 1]) then SkipBackWhile(s, drop, stop - 1) else stop
  }

  /** A run of droppable characters ending at a non-droppable one is skipped exactly. */
  lemma SkipWhileExact(s: string, drop: char -> bool, from: nat, m: nat)
    requires from <= m <= |s|
    requires forall i | from <= i < m :: drop(s[i])
    requires m < |s| ==> !drop(s[m])
    ensures SkipWhile(s, drop, from) == m
  {
  }

  /** A droppable tail behind a non-droppable character is skipped back exactly. */
  lemma SkipBackWhileExact(s: string, drop: char -> bool, stop: nat, m: nat)
    requires m <= stop <= |s|
    requires forall i | m <= i < stop :: drop(s[i])
    requires m > 0 ==> !drop(s[m - 1])
    ensures SkipBackWhile(s, drop, stop) == m
  {
  }

  /** A range whose characters all satisfy `keep` is a slice that does. */
  lemma AllSlice(s: string, i: nat, j: nat, keep: char -> bool)
    requires i <= j <= |s|
    requires forall k | i <= k < j :: keep(s[k])
    ensures All(s[i..j], keep)
  {
    forall k | 0 <= k < j - i ensures keep(s[i..j][k]) {
      assert s[i..j][k] == s[i + k];
    }
  }

  /** Cutting a string at ascending positions and gluing the pieces gives it back. */
  lemma Pieces(s: string, a: nat, h: nat, b: nat, c: nat)
    requires a <= h <= b <= c <= |s|
    ensures s == s[..a] + s[a..h] + s[h..b] + s[b..c] + s[c..]
  {
    assert s[..h] == s[..a] + s[a..h];
    assert s[..b] == s[..h] + s[h..b];
    assert s[..c] == s[..b] + s[b..c];
    assert s == s[..c] + s[c..];
  }
}
